=== FILE: README.md ===
# Scratch-off reveal engine, modelled in Dafny

This project models the reveal-state engine of a browser "scratch-off" widget
and the scheduling rule of its background-image generator. In the widget, a
background image sits under an opaque mask, and mouse input erases small
discs of that mask.

The browser script keeps its state in globals. Here that state is one
explicit record, `Session.State`, which holds:

- the revealed-point list;
- the mouse state: the client position, the last client position, the canvas
  cursor and the button flag;
- the storage slot.

Each event handler is a pure step function over that record. What an event
reads from the page is passed in as an `Env` value: whether the image is
displayed, its client rectangle, the image source and modification token, the
integer canvas size and the clock.

Modules, following the program's structure:

- `Geometry`: points with real coordinates, squared distances, the inclusive
  in-bounds test and the client-to-canvas conversion.
- `RevealStore`: the append-only point list and its three insertion policies.
  Permanent inserts dedup within 4 px, moving inserts within 2 px and gap-fill
  inserts within 1 px. Only the permanent and moving inserts raise the
  checkpoint signal.
- `GapFill`: the interpolated points between two successive mouse positions.
  There is a functional reference (`FillAll` over `Candidates`) and the loop
  as the script writes it (`FillGapsLoop`).
- `Persistence`: the stored snapshot, the restore/discard/keep decision and
  the new-image check.
- `Session`: the session record and the handlers for mouse move, mouse down,
  mouse up, load, reset, image ready and page exit.
- `Percentage`: the overlap-naive revealed-area estimate, capped at 100.
- `Mask`: the per-frame hole list. `FrameGate`: the 60 fps redraw gate.
- `ImageGenerator`: when a new background image is generated, and what a run
  of `main` returns and records.

Abstractions:

- `Math.sqrt` and `Math.ceil` are not computed. A move takes a `Measure(d, steps)`,
  and `ValidMeasure` ties it to the endpoints: `d >= 0`,
  `d * d == dx * dx + dy * dy` and `steps - 1 < d / 4 <= steps`.
- Distances are compared squared. For a radius `r > 0`, `sqrt(q) < r` holds
  exactly when `q < r * r`.
- `Math.PI` is a parameter `pi > 0`.
- JavaScript doubles are modelled as exact reals.
- The generator's file-existence checks, its clock (whole seconds) and the
  image service's answer are all parameters.

Behaviours of the script worth knowing:

- A checkpoint save fires when the list length right after a permanent or
  moving push is a multiple of 10 (app.js:172 and :191). The comment there
  reads "every 10 new positions", but the test is on the total length, so
  gap-fill pushes (which never save) and a restored list shift which pushes
  trigger a save.
- The gap fill converts the previous client position with the current
  rectangle. The last position is updated even when the pointer is outside the
  image. So entering the image from outside can store points outside the
  canvas (`Session.EntryStrokeRevealsOffCanvas`). These points count toward
  the percentage.
- The first move of a page never gap-fills, because the previous position is
  still the (0,0) sentinel (`Session.FirstMoveHasNoGap`).

## Model

| member | source | states |
|---|---|---|
| Geometry.ToCanvas | static/js/app.js:93-103 | A client point inside the inclusive rectangle maps to canvas coordinates between 0 and the rectangle's width and height. The offset is exactly the rectangle's left and top. |
| RevealStore.AnyNearIsCovered | static/js/app.js:164-166 | The `some` scan finds a point exactly when some stored point lies strictly closer than the radius. |
| RevealStore.Add | static/js/app.js:162-195 | An insert is a no-op exactly when some stored point lies strictly within the policy's radius (4, 2 or 1). Otherwise it appends exactly `q` after an untouched prefix. The checkpoint fires exactly when a permanent or moving push makes the length a multiple of 10, and never for a gap-fill push. |
| RevealStore.AddCovers | static/js/app.js:162-195 | After any insert, the point is covered within the policy's radius, and the old list is a prefix of the new one. |
| RevealStore.AddTwice | static/js/app.js:106-111 | Inserting the same point twice, under any two policies, grows the list by at most one. The second insert pushes only if the first did not. |
| RevealStore.MovingAcceptsWhatPermanentRejects | static/js/app.js:162-195 | The policies really differ: a point 3 px from a stored point is rejected by the permanent insert and accepted by the moving insert. |
| GapFill.Candidates | static/js/app.js:203-208 | The loop visits `steps - 1` points when the gap exceeds 8 px and `steps > 1`, and none otherwise. Iteration `i` visits the interpolated point at `t = i / steps`. |
| GapFill.FillAll | static/js/app.js:205-218 | Gap filling extends the list and adds at most one point per candidate. |
| GapFill.FillAllPushesCandidates | static/js/app.js:211-217 | Every point that gap filling appends is one of the interpolated candidates. |
| GapFill.FillAllCovers | static/js/app.js:211-217 | After gap filling, every candidate lies strictly within 1 px of a stored point. Any point covered before is still covered. |
| GapFill.FillAllPushesOnlyUncovered | static/js/app.js:211-216 | Every appended point had no stored point strictly within 1 px when it was pushed, counting gap points pushed earlier in the same run. |
| GapFill.FillAllAppend | static/js/app.js:205-218 | Filling over two runs of candidates one after the other equals filling over the first run, then over the second from the list the first left. |
| GapFill.FillAllVisit | static/js/app.js:205-218 | At iteration `k`, the candidate is pushed exactly when nothing in the list built so far, from the earlier candidates included, lies strictly within 1 px of it, and otherwise skipped. The list after iteration `k` is a prefix of the final list. |
| GapFill.FillGaps | static/js/app.js:198-220 | A gap of at most 8 px adds nothing. Gap filling is append-only and adds at most `Count(m)` points. |
| GapFill.FillGapsPushesOnlyUncovered | static/js/app.js:205-218 | Each point a gap fill appends is one of the interpolated candidates, and nothing stored before it lies strictly within 1 px, earlier gap points included. |
| GapFill.FillGapsLoop | static/js/app.js:198-220 | The loop over `i = 1 .. steps - 1` computes exactly the fold over the candidates. |
| GapFill.CandidateCount | static/js/app.js:202-205 | With the true distance above 8 px, exactly `ceil(d / 4) - 1` points are considered, and at least two. |
| GapFill.CandidatesStrictlyBetween | static/js/app.js:205-208 | Each candidate lies on the segment at a parameter strictly between 0 and 1. |
| GapFill.CandidateSpacing | static/js/app.js:203-208 | Consecutive candidates are at most 4 px apart. |
| GapFill.TwentyPixelJump | static/js/app.js:198-208 | A 20 px horizontal jump gives interior points at x = 4, 8, 12 and 16. |
| Persistence.Decide | static/js/app.js:248-262 | A snapshot is restored exactly when: the version is "1.0", the image path matches, the timestamp is nonzero, the snapshot is less than 24 hours old, and width and height match. When the first four hold but the size differs, it is discarded. Otherwise it is kept. |
| Persistence.CaptureThenDecide | static/js/app.js:223-262 | A saved snapshot is restored with the identical list at a later page with the same image and size, a nonzero save time and less than 24 hours elapsed. With a different size it is discarded, and otherwise kept. |
| Persistence.CaptureIsNotNewImage | static/js/app.js:501-510 | A saved snapshot does not trigger the new-image reset for the same image source. This holds when the page has no usable modification token or the same one. |
| Persistence.Capture | static/js/app.js:223-238 | The saved record carries the current list and the current time. It always has the page's size, and it passes the freshness checks for that page exactly when the clock is nonzero. |
| Persistence.IsNewImage | static/js/app.js:501-515 | An empty slot is never a new image, and an unreadable entry always is. A record for another image source is a new image. For the same source, it is one exactly when the page has a truthy modification token that differs from the stored one, so a record is kept when the page has no token. |
| Persistence.StaleIsKept | static/js/app.js:248-251 | A snapshot 24 hours old or older is neither restored nor discarded. |
| Session.Start | static/js/app.js:10-29 | A page starts with an empty list, the storage left from earlier pages, and the mouse at rest: button up, and the client position, last position and canvas cursor all at the (0,0) sentinel. |
| Session.Save | static/js/app.js:223-238 | A save stores a snapshot of the current list and changes nothing else. |
| Session.Reset | static/js/app.js:271-278 | A reset empties both the storage slot and the list, and leaves the mouse state alone. |
| Session.Commit | static/js/app.js:162-195 | A permanent or moving insert on the session appends unless the point is covered. It replaces the slot with a snapshot of the new list exactly when the push makes the length a multiple of 10. |
| Session.Reveal | static/js/app.js:101-118 | An in-bounds move covers the current canvas point within 2 px. When the button is down, it is also covered within 4 px. The old list stays a prefix. |
| Session.Move | static/js/app.js:79-137 | A move always records the client and last position and keeps the button flag. The cursor becomes the canvas point inside the image, becomes (0,0) outside it, and is unchanged when the image is hidden. The list only grows. |
| Session.MoveOutsideKeepsStore | static/js/app.js:89-132 | When the image is hidden or the pointer is outside it, a move changes neither the list nor the slot. |
| Session.MoveInside | static/js/app.js:101-118 | An in-bounds move covers the current point. It adds at most one point plus the gap points, and gap points only when both last coordinates are nonzero. |
| Session.MoveTwice | static/js/app.js:416-423 | A move whose target is the canvas reaches both the canvas listener and, by bubbling, the document listener, so the handler runs twice on the same event. The second run changes nothing. A move elsewhere reaches only the document listener and runs once. |
| Session.DownTwice | static/js/app.js:417-422 | A mouse-down on the canvas also bubbles to the document listener. Running the handler twice on the same event equals running it once. |
| Session.FillFrom | static/js/app.js:113-118 | The gap fill inside a move only appends to the list and leaves the mouse and the slot alone. While either previous client coordinate is still 0, it does nothing. |
| Session.FirstMoveHasNoGap | static/js/app.js:11-19 | The first move of a page stores at most one point: the (0,0) sentinel in the last position suppresses the gap fill. |
| Session.MoveSavesOnlyCheckpoints | static/js/app.js:105-118 | After a move, the slot is either unchanged or holds a snapshot of a prefix of the new list. That prefix is longer than the old list and its length is a multiple of 10. |
| Session.Down | static/js/app.js:140-154 | Mouse-down sets the flag everywhere. Outside the image, or with the image hidden, the list and the slot stay unchanged. Inside, it is the permanent insert: the canvas point is appended exactly when no stored point lies strictly within 4 px. The slot becomes a snapshot of the new list exactly when that push makes the length a multiple of 10, and is unchanged otherwise. |
| Session.Up | static/js/app.js:157-159 | Mouse-up clears the flag and changes nothing else. |
| Session.Load | static/js/app.js:241-268 | Load restores the stored list exactly when all five checks pass. If only the size differs, it resets the session. Otherwise it leaves the session untouched. |
| Session.ImageReady | static/js/app.js:498-520 | When the image is ready, the canvas cursor is reset. A new image empties both the list and the slot. That means an unreadable entry, a record for another image source, or a record whose modification token differs while the page has a truthy one. Otherwise the load step follows the stored decision: restore sets the list to the stored one and keeps the slot, discard empties both, and keep leaves both unchanged. |
| Session.Unload | static/js/app.js:659-666 | Leaving the page stores a snapshot of the current list. |
| Session.ReloadRestores | static/js/app.js:498-520 | Save on exit, then a fresh page with the same image and canvas size within 24 hours: the image-ready step restores the identical list. |
| Session.ResizedSnapshotClears | static/js/app.js:254-261 | Loading a current snapshot saved for another canvas width reports no restore and clears both the slot and the list. |
| Session.EntryStrokeRevealsOffCanvas | static/js/app.js:113-118 | Entering the image from a position left of it stores a gap point with a negative canvas x coordinate. |
| Percentage.RevealPercentage | static/js/app.js:295-314 | A hidden image shows the "0.0%" readout. For a positive canvas area, the value lies in [0, 100]. Below the cap it is exactly the summed disc area `n * pi * 2^2` as a percentage of `width * height`. On a zero-area canvas the value is 100 with points and NaN without. |
| Percentage.EstimateBelowCap | static/js/app.js:304-307 | While `n * pi * 4` is below the canvas area, the uncapped estimate is below 100 and times the area equals `n * pi * 400`. |
| Percentage.PercentageMonotone | static/js/app.js:301-307 | More stored points never lower the percentage. |
| Percentage.PercentageCap | static/js/app.js:304-307 | The percentage is exactly 100 once `n * pi * 4` reaches the canvas area, and below 100 before that. |
| Mask.Draw | static/js/app.js:317-349 | No image gives a clear canvas. Otherwise there is one hole per stored point, plus one for the cursor exactly when both of its coordinates are strictly positive. |
| Mask.ErasedIff | static/js/app.js:322-341 | With the image shown, a canvas point is erased exactly when it lies within 2 px of a stored point or of an on-canvas cursor. |
| Mask.ErasureMonotone | static/js/app.js:327-333 | A point erased by a stored point stays erased as the list grows, wherever the cursor is. |
| FrameGate.Animate | static/js/app.js:352-359 | A tick redraws exactly when at least 1000/60 ms have passed since the last redraw, and only then moves the last-redraw time. |
| FrameGate.RedrawsSpaced | static/js/app.js:352-359 | For any tick times, redraws are at least one frame interval apart. The k-th redraw comes at least k + 1 intervals after the start. |
| ImageGenerator.ShouldGenerate | image_generator.py:31-61 | A missing image means generate, checked first. With the image present, a missing, unreadable or malformed timestamp file means generate. Otherwise generate exactly when the elapsed time strictly exceeds the interval; exactly the interval does not. |
| ImageGenerator.ShouldGenerateMonotone | image_generator.py:47-49 | Once regeneration is due, it stays due at every later time. |
| ImageGenerator.GenerateImage | image_generator.py:73-85 | Without a non-empty API key the result is (None, "API key not configured") and the service is not used. Otherwise a path comes back exactly when the service produced an image. A path and an error never come together. |
| ImageGenerator.Record | image_generator.py:63-71 | A completed write records the current time. A failed open leaves the old file, and a failure after the file was opened for writing leaves it malformed. |
| ImageGenerator.RecordDefersOnlyWhenWritten | image_generator.py:63-71 | Within the interval, only a completed write defers the next generation. A truncated file makes the next run generate, and a failed open leaves the decision to the old file. |
| ImageGenerator.MainAsWritten | image_generator.py:196-223 | As written, a run returns True exactly when generation is due, a key is configured, and the service either produced an image or failed with an empty message. A run that returns False leaves the timestamp file unchanged. |
| ImageGenerator.EmptyErrorCountsAsSuccess | image_generator.py:200-209 | As written, a failed generation whose error message is empty returns True and rewrites the timestamp. |
| ImageGenerator.Main | image_generator.py:196-223 | A run succeeds exactly when generation is due, a key is configured and the service produced an image. A failed run leaves the timestamp file unchanged, and a successful one leaves it as the timestamp write left it. |
| ImageGenerator.MainAgreesOnNonEmptyErrors | image_generator.py:200-209 | The corrected run and the as-written run agree whenever the service's error message, if any, is non-empty. |
| ImageGenerator.SuccessDefersNextRun | image_generator.py:196-209 | After a successful run whose timestamp write completed, with the image in place, the next run regenerates exactly when more than the interval has passed. |

## Left out

- Layout and framing: `initCanvas`, `handleResize`, `showCanvasFrameDefault`, `showCanvasFrame`, `positionCanvasOverImage`, cursor styling, `testCanvas`, the test-reveal button and the listener wiring. They are browser geometry. The canvas size they set reaches the model as `Page.width` and `Page.height`.
- Network polling: `checkImage` retries and the `checkSessionReset` fetch are timers and I/O. The server route at app.py:38-46 never sends `reset_required`, so that reset never fires.
- JSON encoding and the storage API: the slot stores a `Snapshot` value as is. A parse failure is the `Invalid` slot, and a missing field is a value that fails its comparison.
- Storage exceptions: storage is assumed available. The swallowed quota failure in a save is not modelled. Neither is a failing `removeItem`, which would leave the list unreset.
- `toFixed(1)` formatting and pixel compositing: the readout is the unrounded value, and the mask is its hole list.
- Floating point: `Math.sqrt`, `Math.ceil` and `Math.PI` are abstracted as described above. Rounding of doubles is not modelled.
- app.py and run.py: thin Flask routes and server start-up.
- The image service: the OpenAI-compatible client call, base64 decoding, file writes, printing, `--status` and `--help`. The service's answer is the `ServiceOutcome` parameter.
- Environment parsing: an invalid `GENERATION_INTERVAL_HOURS` fails at import and is not modelled.
- ImageGenerator.Record: why a write fails (permissions, a full disk) is left to the `WriteOutcome` parameter. A write that stops part-way is modelled like an empty file, as malformed.
- The generator reads the clock twice (decision and timestamp write). The model uses one `now` in whole seconds.
- Session.Move: takes the distance and step count as a `Measure` tied to the endpoints by its precondition, instead of computing a square root and a ceiling.

## Findings

| source | as written | input that shows it | evidently intended | confidence | as-written member | corrected member |
|---|---|---|---|---|---|---|
| image_generator.py:202 | `if error:` tests the message's truthiness. `generate_with_gemini_2_0` returns `str(e)` as the error, and that is empty for an exception raised without a message. | The image service raises an exception with an empty message while generation is due. | Treat the run as failed, return False and keep the old timestamp. | low, not executed | ImageGenerator.EmptyErrorCountsAsSuccess | ImageGenerator.Main |

=== FILE: framegate.dfy ===
/**
 The animation loop's frame-rate gate: a display-refresh tick redraws only
 when at least 1000/60 ms have passed since the last redraw; the tick is
 rescheduled either way.
 */
module FrameGate {

  const FrameRate := 60

  const FrameInterval: real := 1000.0 / FrameRate as real

  datatype Tick = Tick(draw: bool, lastTime: real)

  /** animate(currentTime): redraw and remember the time, or do nothing. */
  function Animate(lastTime: real, now: real): (t: Tick)
    ensures t.draw <==> now - lastTime >= FrameInterval
    ensures t.lastTime == if t.draw then now else lastTime
  {
    if now - lastTime >= FrameInterval then Tick(true, now) else Tick(false, lastTime)
  }

  /** The times at which a run of ticks redraws, starting from `lastTime`. */
  function Redraws(lastTime: real, times: seq<real>): (ds: seq<real>)
    ensures |ds| <= |times|
    decreases |times|
  {
    if |times| == 0 then []
    else
      var t := Animate(lastTime, times[0]);
      (if t.draw then [times[0]] else []) + Redraws(t.lastTime, times[1..])
  }

  /**
   Redraws are at least one frame interval apart, and the k-th redraw comes
   at least k + 1 intervals after `start`.
   */
  ghost predicate Spaced(start: real, ds: seq<real>)
  {
    && (forall i :: 0 < i < |ds| ==> ds[i] - ds[i - 1] >= FrameInterval)
    && (forall k :: 0 <= k < |ds| ==> ds[k] >= start + (k + 1) as real * FrameInterval)
  }

  /** Whatever the tick times, the gate keeps redraws spaced: never more than 60 per second. */
  lemma {:induction false} RedrawsSpaced(lastTime: real, times: seq<real>)
    ensures Spaced(lastTime, Redraws(lastTime, times))
    decreases |times|
  {
    if |times| > 0 {
      var t := Animate(lastTime, times[0]);
      var rest := Redraws(t.lastTime, times[1..]);
      RedrawsSpaced(t.lastTime, times[1..]);
      if t.draw {
        assert Redraws(lastTime, times) == [times[0]] + rest;
        SpacedCons(lastTime, times[0], rest);
      } else {
        assert Redraws(lastTime, times) == rest;
      }
    }
  }

  /** A redraw one interval after `start`, followed by a run spaced from it, is spaced from `start`. */
  lemma SpacedCons(start: real, d: real, rest: seq<real>)
    requires d - start >= FrameInterval
    requires Spaced(d, rest)
    ensures Spaced(start, [d] + rest)
  {
    ConsBound(start, d, rest);
    ConsGaps(start, d, rest);
  }

  lemma ConsBound(start: real, d: real, rest: seq<real>)
    requires d - start >= FrameInterval
    requires Spaced(d, rest)
    ensures forall k :: 0 <= k < |[d] + rest| ==> ([d] + rest)[k] >= start + (k + 1) as real * FrameInterval
  {
    var ds := [d] + rest;
    forall k | 0 <= k < |ds|
      ensures ds[k] >= start + (k + 1) as real * FrameInterval
    {
      if k > 0 {
        assert ds[k] == rest[k - 1];
        ShiftByOne(start, d, rest[k - 1], k - 1);
      }
    }
  }

  lemma ConsGaps(start: real, d: real, rest: seq<real>)
    requires Spaced(d, rest)
    ensures forall i :: 0 < i < |[d] + rest| ==> ([d] + rest)[i] - ([d] + rest)[i - 1] >= FrameInterval
  {
    var ds := [d] + rest;
    forall i | 0 < i < |ds|
      ensures ds[i] - ds[i - 1] >= FrameInterval
    {
      if i == 1 {
        assert ds[1] == rest[0];
      } else {
        assert ds[i] == rest[i - 1] && ds[i - 1] == rest[i - 2];
      }
    }
  }

  /** A redraw `j + 1` intervals after `d` is `j + 2` intervals after a `start` one interval before `d`. */
  lemma ShiftByOne(start: real, d: real, x: real, j: int)
    requires d - start >= FrameInterval && x >= d + (j + 1) as real * FrameInterval
    ensures x >= start + (j + 2) as real * FrameInterval
  {
    assert (j + 2) as real * FrameInterval == (j + 1) as real * FrameInterval + FrameInterval;
  }
}

=== FILE: gapfill.dfy ===
/**
 Gap filling between two successive mouse positions: when the pointer
 jumps more than 8 px between events, interior points about 4 px apart are
 pushed with the gap-fill policy so the revealed trail has no seams.

 The source computes the distance with `Math.sqrt` and the step count with
 `Math.ceil`; both arrive here as a `Measure` that `ValidMeasure` ties to
 the two endpoints.
 */
module GapFill {
  import opened Geometry
  import opened RevealStore

  /** Distance `d` between the endpoints and `steps = ceil(d / 4)`. */
  datatype Measure = Measure(d: real, steps: int)

  /** Above this distance the gap is filled. */
  const GapTrigger := 8.0

  /** Target spacing of the interpolated points. */
  const StepPx := 4.0

  /** `m.d` is the Euclidean distance from `a` to `b` and `m.steps` its ceiling divided by the spacing. */
  predicate ValidMeasure(a: Point, b: Point, m: Measure)
  {
    && m.d >= 0.0
    && m.d * m.d == DistSq(a, b)
    && (m.steps - 1) as real < m.d / StepPx <= m.steps as real
  }

  /** Number of iterations of `for (let i = 1; i < steps; i++)`, zero unless the gap exceeds the trigger. */
  function Count(m: Measure): (n: nat)
    ensures n == 0 || (m.d > GapTrigger && n + 1 == m.steps)
  {
    if m.d > GapTrigger && m.steps > 1 then m.steps - 1 else 0
  }

  /** The interpolated point of iteration `i`: `t = i / steps`, then `x1 + (x2 - x1) * t` per coordinate. */
  function GapPoint(a: Point, b: Point, steps: int, i: int): (p: Point)
  {
    Lerp(a, b, if steps == 0 then 0.0 else i as real / steps as real)
  }

  /** The points the loop visits, in order: iterations i = 1 .. steps - 1. */
  function Candidates(a: Point, b: Point, m: Measure): (cs: seq<Point>)
    ensures |cs| == Count(m)
    ensures forall k :: 0 <= k < |cs| ==> cs[k] == GapPoint(a, b, m.steps, k + 1)
  {
    seq(Count(m), k requires 0 <= k < Count(m) => GapPoint(a, b, m.steps, k + 1))
  }

  /** Pushes each candidate in turn with the gap-fill policy; the result extends `ps` by at most `|cs|` points. */
  function FillAll(ps: seq<Point>, cs: seq<Point>): (r: seq<Point>)
    ensures IsPrefix(ps, r)
    ensures |r| <= |ps| + |cs|
    decreases |cs|
  {
    if |cs| == 0 then ps
    else
      var step := Add(ps, cs[0], GapFill);
      var r := FillAll(step.points, cs[1..]);
      PrefixTransitive(ps, step.points, r);
      r
  }

  /** Every point gap filling pushes is one of the candidates. */
  lemma {:induction false} FillAllPushesCandidates(ps: seq<Point>, cs: seq<Point>)
    ensures forall j :: |ps| <= j < |FillAll(ps, cs)| ==> FillAll(ps, cs)[j] in cs
    decreases |cs|
  {
    if |cs| > 0 {
      var step := Add(ps, cs[0], GapFill);
      var r := FillAll(step.points, cs[1..]);
      FillAllPushesCandidates(step.points, cs[1..]);
      forall j | |ps| <= j < |r|
        ensures r[j] in cs
      {
        if j < |step.points| {
          assert r[j] == r[..|step.points|][j] == step.points[j] == cs[0];
        } else {
          assert r[j] in cs[1..];
        }
      }
    }
  }

  /**
   After gap filling, every candidate lies strictly within 1 px of some stored
   point (pushed now or already present), and whatever was covered stays covered.
   */
  lemma {:induction false} FillAllCovers(ps: seq<Point>, cs: seq<Point>)
    ensures forall k :: 0 <= k < |cs| ==> Covered(FillAll(ps, cs), cs[k], Threshold(GapFill))
    ensures forall q :: Covered(ps, q, Threshold(GapFill)) ==> Covered(FillAll(ps, cs), q, Threshold(GapFill))
    decreases |cs|
  {
    if |cs| > 0 {
      var step := Add(ps, cs[0], GapFill);
      var r := FillAll(step.points, cs[1..]);
      AddCovers(ps, cs[0], GapFill);
      FillAllCovers(step.points, cs[1..]);
      assert forall k :: 1 <= k < |cs| ==> cs[k] == cs[1..][k - 1];
      forall q | Covered(ps, q, Threshold(GapFill))
        ensures Covered(r, q, Threshold(GapFill))
      {
        CoveredExtends(ps, step.points, q, Threshold(GapFill));
      }
    }
  }

  /**
   The other half of the 1 px dedup: each appended point was not covered by
   anything stored before it, including the gap points pushed earlier in the
   same run.
   */
  lemma {:induction false} FillAllPushesOnlyUncovered(ps: seq<Point>, cs: seq<Point>)
    ensures forall j :: |ps| <= j < |FillAll(ps, cs)| ==>
              !Covered(FillAll(ps, cs)[..j], FillAll(ps, cs)[j], Threshold(GapFill))
    decreases |cs|
  {
    if |cs| > 0 {
      var step := Add(ps, cs[0], GapFill);
      var r := FillAll(step.points, cs[1..]);
      FillAllPushesOnlyUncovered(step.points, cs[1..]);
      forall j | |ps| <= j < |r|
        ensures !Covered(r[..j], r[j], Threshold(GapFill))
      {
        if j < |step.points| {
          PushedHead(ps, cs[0], r);
        }
      }
    }
  }

  /** When the head candidate is pushed, the fold's result starts with `ps` and then that candidate. */
  lemma PushedHead(ps: seq<Point>, c: Point, r: seq<Point>)
    requires Add(ps, c, GapFill).added && IsPrefix(Add(ps, c, GapFill).points, r)
    ensures r[..|ps|] == ps && r[|ps|] == c
    ensures !Covered(r[..|ps|], r[|ps|], Threshold(GapFill))
  {
    var pts := Add(ps, c, GapFill).points;
    assert pts == ps + [c];
    assert r[..|pts|] == pts;
    assert r[..|ps|] == pts[..|ps|];
    assert r[|ps|] == pts[|ps|];
  }

  /** Folding over `xs + ys` is folding over `xs`, then over `ys` from where that left off. */
  lemma {:induction false} FillAllAppend(ps: seq<Point>, xs: seq<Point>, ys: seq<Point>)
    ensures FillAll(ps, xs + ys) == FillAll(FillAll(ps, xs), ys)
    decreases |xs|
  {
    if |xs| == 0 {
      assert xs + ys == ys;
    } else {
      var step := Add(ps, xs[0], GapFill);
      assert (xs + ys)[0] == xs[0];
      assert (xs + ys)[1..] == xs[1..] + ys;
      FillAllAppend(step.points, xs[1..], ys);
    }
  }

  /**
   The state at each iteration: candidate `k` is pushed exactly when nothing
   in the list built from the earlier candidates lies strictly within 1 px of
   it, and that list grows into the final one.
   */
  lemma FillAllVisit(ps: seq<Point>, cs: seq<Point>, k: int)
    requires 0 <= k < |cs|
    ensures var before := FillAll(ps, cs[..k]);
            FillAll(ps, cs[..k + 1])
              == if Covered(before, cs[k], Threshold(GapFill)) then before else before + [cs[k]]
    ensures IsPrefix(FillAll(ps, cs[..k + 1]), FillAll(ps, cs))
  {
    var before := FillAll(ps, cs[..k]);
    assert cs[..k + 1] == cs[..k] + [cs[k]];
    FillAllAppend(ps, cs[..k], [cs[k]]);
    assert FillAll(before, [cs[k]]) == Add(before, cs[k], GapFill).points by {
      assert [cs[k]][1..] == [];
    }
    assert cs == cs[..k + 1] + cs[k + 1..];
    FillAllAppend(ps, cs[..k + 1], cs[k + 1..]);
  }

  /** fillGapsBetweenPositions(a, b) on the store `ps`. */
  function FillGaps(ps: seq<Point>, a: Point, b: Point, m: Measure): (r: seq<Point>)
    ensures IsPrefix(ps, r)
    ensures m.d <= GapTrigger ==> r == ps
    ensures |r| <= |ps| + Count(m)
  {
    FillAll(ps, Candidates(a, b, m))
  }

  /**
   A point gap filling appends is one of the interpolated candidates, and no
   point stored before it, earlier gap points included, lies within 1 px.
   */
  lemma FillGapsPushesOnlyUncovered(ps: seq<Point>, a: Point, b: Point, m: Measure)
    ensures var r := FillGaps(ps, a, b, m);
            forall j :: |ps| <= j < |r| ==>
              r[j] in Candidates(a, b, m) && !Covered(r[..j], r[j], Threshold(GapFill))
  {
    FillAllPushesCandidates(ps, Candidates(a, b, m));
    FillAllPushesOnlyUncovered(ps, Candidates(a, b, m));
  }

  /**
   The loop as the source writes it: compute `t = i / steps`, interpolate,
   scan the store and push when nothing lies within 1 px.
   */
  method FillGapsLoop(ps: seq<Point>, a: Point, b: Point, m: Measure) returns (r: seq<Point>)
    ensures r == FillGaps(ps, a, b, m)
  {
    r := ps;
    if m.d > GapTrigger {
      var i := 1;
      while i < m.steps
        invariant 1 <= i && i - 1 <= Count(m)
        invariant FillAll(r, Candidates(a, b, m)[i - 1..]) == FillAll(ps, Candidates(a, b, m))
      {
        var q := GapPoint(a, b, m.steps, i);
        LoopStep(r, a, b, m, i);
        r := Add(r, q, GapFill).points;
        i := i + 1;
      }
      LoopExit(r, a, b, m, i);
    }
  }

  /** One iteration of the loop is one unfolding of `FillAll`. */
  lemma LoopStep(r: seq<Point>, a: Point, b: Point, m: Measure, i: int)
    requires m.d > GapTrigger && 1 <= i < m.steps
    ensures FillAll(r, Candidates(a, b, m)[i - 1..])
         == FillAll(Add(r, GapPoint(a, b, m.steps, i), GapFill).points, Candidates(a, b, m)[i..])
  {
    var cs := Candidates(a, b, m);
    assert cs[i - 1..][0] == cs[i - 1] == GapPoint(a, b, m.steps, i);
    assert cs[i - 1..][1..] == cs[i..];
  }

  /** When the loop stops, no candidate is left. */
  lemma LoopExit(r: seq<Point>, a: Point, b: Point, m: Measure, i: int)
    requires 1 <= i && i - 1 <= Count(m) && i >= m.steps
    ensures FillAll(r, Candidates(a, b, m)[i - 1..]) == r
  {
    assert Candidates(a, b, m)[i - 1..] == [];
  }

  /** With a true distance above 8 px, the loop visits exactly `ceil(d / 4) - 1` points, at least two. */
  lemma CandidateCount(a: Point, b: Point, m: Measure)
    requires ValidMeasure(a, b, m) && m.d > GapTrigger
    ensures m.steps >= 3
    ensures |Candidates(a, b, m)| == m.steps - 1
  {
  }

  /** Every candidate lies on the segment strictly between the endpoints, at `t = (k + 1) / steps`. */
  lemma CandidatesStrictlyBetween(a: Point, b: Point, m: Measure)
    requires ValidMeasure(a, b, m)
    ensures forall k :: 0 <= k < |Candidates(a, b, m)| ==>
              var t := (k + 1) as real / m.steps as real;
              0.0 < t < 1.0 && Candidates(a, b, m)[k] == Lerp(a, b, t)
  {
    var cs := Candidates(a, b, m);
    forall k | 0 <= k < |cs|
      ensures var t := (k + 1) as real / m.steps as real;
              0.0 < t < 1.0 && cs[k] == Lerp(a, b, t)
    {
      var n := m.steps as real;
      assert 0.0 < (k + 1) as real < n;
      DivisionBelowOne((k + 1) as real, n);
    }
  }

  lemma DivisionBelowOne(x: real, n: real)
    requires 0.0 < x < n
    ensures 0.0 < x / n < 1.0
  {
    var y := x / n;
    assert y * n == x;
    if y >= 1.0 {
      MulMonotone(1.0, y, n);
    }
    if y <= 0.0 {
      MulMonotone(y, 0.0, n);
    }
  }

  /** Squared distance between two points of one segment scales with the squared parameter difference. */
  lemma LerpDistSq(a: Point, b: Point, t1: real, t2: real)
    ensures DistSq(Lerp(a, b, t1), Lerp(a, b, t2)) == (t2 - t1) * (t2 - t1) * DistSq(a, b)
  {
    var dx, dy, e := b.x - a.x, b.y - a.y, t2 - t1;
    CoordSq(a.x, dx, t1, t2);
    CoordSq(a.y, dy, t1, t2);
    assert DistSq(a, b) == dx * dx + dy * dy;
    assert e * e * (dx * dx) + e * e * (dy * dy) == e * e * (dx * dx + dy * dy);
  }

  /** One coordinate of `LerpDistSq`. */
  lemma CoordSq(u: real, du: real, t1: real, t2: real)
    ensures ((u + du * t1) - (u + du * t2)) * ((u + du * t1) - (u + du * t2)) == (t2 - t1) * (t2 - t1) * (du * du)
  {
    var e := t2 - t1;
    assert (u + du * t1) - (u + du * t2) == -(du * e);
    assert (-(du * e)) * (-(du * e)) == (du * e) * (du * e);
    assert (du * e) * (du * e) == e * e * (du * du);
  }

  /** Consecutive candidates are at most 4 px apart: the spacing the step count is chosen for. */
  lemma CandidateSpacing(a: Point, b: Point, m: Measure)
    requires ValidMeasure(a, b, m)
    ensures forall k :: 0 <= k < |Candidates(a, b, m)| - 1 ==>
              DistSq(Candidates(a, b, m)[k], Candidates(a, b, m)[k + 1]) <= StepPx * StepPx
  {
    var cs := Candidates(a, b, m);
    forall k | 0 <= k < |cs| - 1
      ensures DistSq(cs[k], cs[k + 1]) <= StepPx * StepPx
    {
      NeighbourSpacing(a, b, m, k + 1);
    }
  }

  /** The points of iterations `i` and `i + 1` are `d / steps <= 4` apart. */
  lemma NeighbourSpacing(a: Point, b: Point, m: Measure, i: int)
    requires ValidMeasure(a, b, m) && m.steps > 0
    ensures DistSq(GapPoint(a, b, m.steps, i), GapPoint(a, b, m.steps, i + 1)) <= StepPx * StepPx
  {
    var n := m.steps as real;
    var t1, t2, e := i as real / n, (i + 1) as real / n, 1.0 / n;
    var p1, p2 := GapPoint(a, b, m.steps, i), GapPoint(a, b, m.steps, i + 1);
    assert p1 == Lerp(a, b, t1) && p2 == Lerp(a, b, t2);
    ParameterStep(i, n);
    LerpDistSq(a, b, t1, t2);
    var q := DistSq(a, b);
    assert DistSq(p1, p2) == e * e * q;
    StepSquareBound(m.d, n, e, q);
  }

  /** Successive loop parameters differ by `1 / steps`. */
  lemma ParameterStep(i: int, n: real)
    requires n > 0.0
    ensures (i + 1) as real / n - i as real / n == 1.0 / n
  {
    var t1, t2, e := i as real / n, (i + 1) as real / n, 1.0 / n;
    assert t1 * n == i as real && t2 * n == (i + 1) as real && e * n == 1.0;
    assert (t2 - t1) * n == e * n;
    CancelPositive(t2 - t1, e, n);
  }

  /** With `e = 1 / n` and `d / 4 <= n`, the squared step `e^2 * d^2` is at most 16. */
  lemma StepSquareBound(d: real, n: real, e: real, q: real)
    requires d >= 0.0 && n > 0.0 && e * n == 1.0 && d / StepPx <= n && d * d == q
    ensures e * e * q <= StepPx * StepPx
  {
    GapAtMostStep(d, n, e);
    SquareBelow(e * d, StepPx);
    assert (e * d) * (e * d) == e * e * (d * d);
  }

  lemma CancelPositive(x: real, y: real, n: real)
    requires n > 0.0 && x * n == y * n
    ensures x == y
  {
  }

  lemma GapAtMostStep(d: real, n: real, e: real)
    requires d >= 0.0 && n > 0.0 && e * n == 1.0 && d / StepPx <= n
    ensures 0.0 <= e * d <= StepPx
  {
    assert e > 0.0 by {
      if e <= 0.0 {
        MulMonotone(e, 0.0, n);
      }
    }
    assert d <= StepPx * n;
    MulMonotone(d, StepPx * n, e);
    assert (StepPx * n) * e == StepPx * (n * e);
  }

  /** The example of a 20 px horizontal jump: interior points at x = 4, 8, 12 and 16. */
  lemma TwentyPixelJump()
    ensures ValidMeasure(Point(0.0, 0.0), Point(20.0, 0.0), Measure(20.0, 5))
    ensures Candidates(Point(0.0, 0.0), Point(20.0, 0.0), Measure(20.0, 5))
         == [Point(4.0, 0.0), Point(8.0, 0.0), Point(12.0, 0.0), Point(16.0, 0.0)]
  {
    var cs := Candidates(Point(0.0, 0.0), Point(20.0, 0.0), Measure(20.0, 5));
    assert cs[0] == Point(4.0, 0.0);
    assert cs[1] == Point(8.0, 0.0);
    assert cs[2] == Point(12.0, 0.0);
    assert cs[3] == Point(16.0, 0.0);
  }
}

=== FILE: generator.dfy ===
/**
 The background-image regeneration schedule. File existence, the
 timestamp file's contents, the clock (integer seconds) and the image
 service's answer are parameters.
 */
module ImageGenerator {
  import opened Optional

  const SecondsPerHour := 3600

  const KeyMissing := "API key not configured"

  /** The generation-timestamp file: absent, unreadable or malformed, or holding a time. */
  datatype StampFile = Missing | Unreadable | Stamp(lastGeneration: int)

  /** should_generate_new_image. */
  function ShouldGenerate(imageExists: bool, stamp: StampFile, now: int, intervalHours: int): (r: bool)
    ensures !imageExists ==> r
    ensures imageExists && !stamp.Stamp? ==> r
    ensures imageExists && stamp.Stamp? ==> (r <==> now - stamp.lastGeneration > intervalHours * SecondsPerHour)
  {
    if !imageExists then true
    else match stamp
      case Missing => true
      case Unreadable => true
      case Stamp(last) => now - last > intervalHours * SecondsPerHour
  }

  /** Once the interval has passed it stays passed; before it, every earlier time waits too. */
  lemma ShouldGenerateMonotone(stamp: StampFile, now: int, later: int, intervalHours: int)
    requires now <= later
    ensures ShouldGenerate(true, stamp, now, intervalHours) ==> ShouldGenerate(true, stamp, later, intervalHours)
  {
  }

  /** What the image service answered: a saved file path or an error message. */
  datatype ServiceOutcome = Produced(path: string) | Failed(message: string)

  /** The `(image_path, error)` pair. */
  datatype Generation = Generation(path: Option<string>, error: Option<string>)

  /** An API key is configured when it is set and non-empty (Python truthiness). */
  predicate Configured(apiKey: Option<string>)
  {
    apiKey.Some? && apiKey.value != ""
  }

  /** generate_image_with_gemini: without a key the service is never consulted. */
  function GenerateImage(apiKey: Option<string>, service: ServiceOutcome): (g: Generation)
    ensures !Configured(apiKey) ==> g == Generation(None, Some(KeyMissing))
    ensures Configured(apiKey) ==> (g.path.Some? <==> service.Produced?)
    ensures g.path.Some? <==> g.error.None?
  {
    if !Configured(apiKey) then Generation(None, Some(KeyMissing))
    else match service
      case Produced(p) => Generation(Some(p), None)
      case Failed(msg) => Generation(None, Some(msg))
  }

  /** Result of one run of main: its return value and the timestamp file afterwards. */
  datatype Run = Run(success: bool, stamp: StampFile)

  /**
   How update_generation_time's write ends: written, failed to open (the
   old file is untouched), or failed after opening for writing had already
   truncated the file, which leaves it empty or partial. Every failure is
   swallowed.
   */
  datatype WriteOutcome = Written | OpenFailed | Truncated

  /** The timestamp file after update_generation_time. */
  function Record(stamp: StampFile, now: int, write: WriteOutcome): (r: StampFile)
    ensures write == Written ==> r == Stamp(now)
    ensures write == OpenFailed ==> r == stamp
    ensures write == Truncated ==> r == Unreadable
  {
    match write
    case Written => Stamp(now)
    case OpenFailed => stamp
    case Truncated => Unreadable
  }

  /**
   Only a write that completes defers the next generation: a truncated file
   reads as malformed, and a failed open keeps whatever was there before.
   */
  lemma RecordDefersOnlyWhenWritten(stamp: StampFile, now: int, write: WriteOutcome, next: int, intervalHours: int)
    requires next - now <= intervalHours * SecondsPerHour
    ensures write == Written ==> !ShouldGenerate(true, Record(stamp, now, write), next, intervalHours)
    ensures write == Truncated ==> ShouldGenerate(true, Record(stamp, now, write), next, intervalHours)
    ensures write == OpenFailed ==> (ShouldGenerate(true, Record(stamp, now, write), next, intervalHours)
                                     <==> ShouldGenerate(true, stamp, next, intervalHours))
  {
  }

  /** main as written: the error is tested for truthiness, so an empty message reads as success. */
  function MainAsWritten(imageExists: bool, stamp: StampFile, now: int, intervalHours: int,
                         apiKey: Option<string>, service: ServiceOutcome, write: WriteOutcome): (r: Run)
    ensures r.success <==> ShouldGenerate(imageExists, stamp, now, intervalHours) && Configured(apiKey)
                           && (service.Produced? || service.message == "")
    ensures !r.success ==> r.stamp == stamp
  {
    if ShouldGenerate(imageExists, stamp, now, intervalHours) then
      var g := GenerateImage(apiKey, service);
      if g.error.Some? && g.error.value != "" then Run(false, stamp)
      else Run(true, Record(stamp, now, write))
    else Run(false, stamp)
  }

  /** A service failure with an empty message is reported as success and restarts the interval. */
  lemma EmptyErrorCountsAsSuccess()
    ensures var r := MainAsWritten(false, Missing, 1000, 24, Some("key"), Failed(""), Written);
            r == Run(true, Stamp(1000))
  {
  }

  /**
   main, with success meaning that no error was returned at all. The
   timestamp changes only on success, and success means an image was produced.
   */
  function Main(imageExists: bool, stamp: StampFile, now: int, intervalHours: int,
                apiKey: Option<string>, service: ServiceOutcome, write: WriteOutcome): (r: Run)
    ensures r.success <==> ShouldGenerate(imageExists, stamp, now, intervalHours)
                           && Configured(apiKey) && service.Produced?
    ensures !r.success ==> r.stamp == stamp
    ensures r.success ==> r.stamp == Record(stamp, now, write)
  {
    if ShouldGenerate(imageExists, stamp, now, intervalHours) then
      var g := GenerateImage(apiKey, service);
      if g.error.Some? then Run(false, stamp)
      else Run(true, Record(stamp, now, write))
    else Run(false, stamp)
  }

  /** The two agree whenever the error, if any, has a non-empty message. */
  lemma MainAgreesOnNonEmptyErrors(imageExists: bool, stamp: StampFile, now: int, intervalHours: int,
                                   apiKey: Option<string>, service: ServiceOutcome, write: WriteOutcome)
    requires service.Failed? ==> service.message != ""
    ensures MainAsWritten(imageExists, stamp, now, intervalHours, apiKey, service, write)
         == Main(imageExists, stamp, now, intervalHours, apiKey, service, write)
  {
  }

  /**
   After a successful run whose timestamp was written, and with the image in
   place, the next run regenerates only once more than the interval has passed.
   */
  lemma SuccessDefersNextRun(imageExists: bool, stamp: StampFile, now: int, intervalHours: int,
                             apiKey: Option<string>, service: ServiceOutcome, next: int)
    requires Main(imageExists, stamp, now, intervalHours, apiKey, service, Written).success
    ensures ShouldGenerate(true, Main(imageExists, stamp, now, intervalHours, apiKey, service, Written).stamp, next, intervalHours)
        <==> next - now > intervalHours * SecondsPerHour
  {
  }
}

=== FILE: geometry.dfy ===
/**
 Canvas geometry of the reveal widget: points in canvas-local pixel
 coordinates, the bounding box of the displayed image, the in-bounds test
 and the client-to-canvas conversion.

 Distances are compared squared: for a radius r > 0 and a squared distance
 q >= 0, `sqrt(q) < r` holds exactly when `q < r * r`.
 */
module Geometry {

  /** A point; coordinates are real numbers standing for JavaScript doubles. */
  datatype Point = Point(x: real, y: real)

  /** The image's client bounding box as `getBoundingClientRect` reports it. */
  datatype Rect = Rect(left: real, top: real, right: real, bottom: real)

  const Origin := Point(0.0, 0.0)

  /** Squared Euclidean distance. */
  function DistSq(p: Point, q: Point): (r: real)
    ensures r >= 0.0
    ensures p == q ==> r == 0.0
  {
    SumOfSquares(p.x - q.x, p.y - q.y);
    (p.x - q.x) * (p.x - q.x) + (p.y - q.y) * (p.y - q.y)
  }

  /** A sum of two squares is nonnegative. */
  lemma SumOfSquares(a: real, b: real)
    ensures a * a + b * b >= 0.0
  {
    SquareNonNeg(a);
    SquareNonNeg(b);
  }

  lemma SquareNonNeg(a: real)
    ensures a * a >= 0.0
  {
    if a < 0.0 {
      assert a * a == (-a) * (-a);
    }
  }

  /** Multiplying by a nonnegative factor keeps the order. */
  lemma MulMonotone(x: real, y: real, n: real)
    requires x <= y && n >= 0.0
    ensures x * n <= y * n
  {
    assert y * n - x * n == (y - x) * n;
  }

  /** Squaring is monotone on nonnegative reals. */
  lemma SquareBelow(x: real, bound: real)
    requires 0.0 <= x <= bound
    ensures x * x <= bound * bound
  {
    assert x * x <= x * bound;
    assert x * bound <= bound * bound;
  }

  /** `p` lies strictly closer than `radius` to `q` (the source's `Math.sqrt(...) < radius`). */
  predicate Near(p: Point, q: Point, radius: real)
  {
    DistSq(p, q) < radius * radius
  }

  /** Inclusive containment of a client position in the image rectangle. */
  predicate InRect(rect: Rect, c: Point)
  {
    rect.left <= c.x <= rect.right && rect.top <= c.y <= rect.bottom
  }

  /** Client coordinates to canvas-local coordinates (the canvas is aligned with the image). */
  function ToCanvas(c: Point, rect: Rect): (p: Point)
    ensures p.x + rect.left == c.x && p.y + rect.top == c.y
    ensures InRect(rect, c) ==>
              0.0 <= p.x <= rect.right - rect.left && 0.0 <= p.y <= rect.bottom - rect.top
  {
    Point(c.x - rect.left, c.y - rect.top)
  }

  /** The point at parameter `t` on the segment from `a` to `b`. */
  function Lerp(a: Point, b: Point, t: real): (p: Point)
  {
    Point(a.x + (b.x - a.x) * t, a.y + (b.y - a.y) * t)
  }
}

=== FILE: mask.dfy ===
/**
 The mask drawn each frame, reduced to its hole list: when the image is
 displayed the canvas is filled opaque and a disc is erased at every
 stored point and, when it is on the canvas, at the live cursor. A canvas
 point counts as erased when it lies strictly inside one of the discs.
 */
module Mask {
  import opened Geometry
  import opened RevealStore

  /** Radius of the live cursor hole. */
  const RevealRadius := 2.0

  datatype Hole = Hole(center: Point, radius: real)

  /** Clear: nothing drawn (no image). Overlay: opaque fill with these holes erased. */
  datatype Frame = Clear | Overlay(holes: seq<Hole>)

  /** The live hole is drawn only when both cursor coordinates are strictly positive. */
  predicate CursorOnCanvas(cursor: Point)
  {
    cursor.x > 0.0 && cursor.y > 0.0
  }

  function StoredHoles(positions: seq<Point>): (hs: seq<Hole>)
    ensures |hs| == |positions|
    ensures forall i :: 0 <= i < |hs| ==> hs[i] == Hole(positions[i], PermanentRevealRadius)
  {
    seq(|positions|, i requires 0 <= i < |positions| => Hole(positions[i], PermanentRevealRadius))
  }

  /** drawRevealMask, minus the pixel work. */
  function Draw(shown: bool, positions: seq<Point>, cursor: Point): (f: Frame)
    ensures !shown <==> f == Clear
    ensures shown ==> |f.holes| == |positions| + (if CursorOnCanvas(cursor) then 1 else 0)
  {
    if !shown then Clear
    else Overlay(StoredHoles(positions) + (if CursorOnCanvas(cursor) then [Hole(cursor, RevealRadius)] else []))
  }

  ghost predicate Erased(f: Frame, q: Point)
  {
    f.Overlay? && exists i :: 0 <= i < |f.holes| && Near(f.holes[i].center, q, f.holes[i].radius)
  }

  /**
   With the image displayed, a canvas point is erased exactly when it lies
   within 2 px of a stored point or of an on-canvas cursor.
   */
  lemma ErasedIff(positions: seq<Point>, cursor: Point, q: Point)
    ensures Erased(Draw(true, positions, cursor), q)
        <==> Covered(positions, q, PermanentRevealRadius) || (CursorOnCanvas(cursor) && Near(cursor, q, RevealRadius))
  {
    var f := Draw(true, positions, cursor);
    var hs := StoredHoles(positions);
    if Erased(f, q) {
      var i :| 0 <= i < |f.holes| && Near(f.holes[i].center, q, f.holes[i].radius);
      if i < |positions| {
        assert f.holes[i] == hs[i];
      }
    }
    if Covered(positions, q, PermanentRevealRadius) {
      var i :| 0 <= i < |positions| && Near(positions[i], q, PermanentRevealRadius);
      assert f.holes[i] == hs[i];
    } else if CursorOnCanvas(cursor) && Near(cursor, q, RevealRadius) {
      assert f.holes[|positions|] == Hole(cursor, RevealRadius);
    }
  }

  /** Once erased by a stored point, a canvas point stays erased as the store grows, wherever the cursor is. */
  lemma ErasureMonotone(positions: seq<Point>, later: seq<Point>, cursor: Point, cursor': Point, q: Point)
    requires IsPrefix(positions, later)
    requires Covered(positions, q, PermanentRevealRadius)
    ensures Erased(Draw(true, later, cursor'), q)
  {
    CoveredExtends(positions, later, q, PermanentRevealRadius);
    ErasedIff(later, cursor', q);
  }
}

=== FILE: optional.dfy ===
/** The optional value used for unset JSON fields, stored lists and configuration. */
module Optional {

  /** A value that may be absent (a missing storage entry, an unset JSON field). */
  datatype Option<T> = None | Some(value: T) {

    /** The wrapped value, or `default` when there is none (the source's `x || default`). */
    function GetOr(default: T): (r: T)
      ensures Some? ==> r == value
      ensures None? ==> r == default
    {
      match this
      case Some(v) => v
      case None => default
    }
  }
}

=== FILE: percentage.dfy ===
/**
 The reveal percentage shown beside the canvas: an overlap-naive estimate
 that counts every stored point as a full disc of the permanent radius,
 capped at 100. `pi` is an abstract positive constant standing for `Math.PI`.
 */
module Percentage {
  import opened Geometry
  import opened RevealStore

  /**
   What the percentage element shows: the hidden-image text "0.0%", a
   number, or NaN (a zero-area canvas with no points divides 0 by 0).
   */
  datatype Readout = Hidden | Percent(value: real) | NotANumber

  function Min(a: real, b: real): (r: real)
    ensures r <= a && r <= b && (r == a || r == b)
  {
    if a <= b then a else b
  }

  /** The uncapped estimate: `n * pi * r^2 / (width * height) * 100`. */
  function Estimate(n: nat, width: nat, height: nat, pi: real): (e: real)
    requires pi > 0.0 && width * height > 0
    ensures e >= 0.0
  {
    var revealed := n as real * pi * (PermanentRevealRadius * PermanentRevealRadius);
    Scaled(n as real, pi * (PermanentRevealRadius * PermanentRevealRadius), (width * height) as real);
    revealed / (width * height) as real * 100.0
  }

  lemma Scaled(n: real, k: real, area: real)
    requires n >= 0.0 && k > 0.0 && area > 0.0
    ensures n * k / area * 100.0 >= 0.0
  {
    assert n * k >= 0.0;
  }

  /**
   updateRevealPercentage. A zero-area canvas divides by zero in the
   source: with points the quotient is +Infinity and the cap gives 100;
   without points it is NaN.
   */
  function RevealPercentage(n: nat, width: nat, height: nat, pi: real, shown: bool): (r: Readout)
    requires pi > 0.0
    ensures !shown <==> r == Hidden
    ensures shown && width * height > 0 ==> r.Percent? && 0.0 <= r.value <= 100.0
    ensures shown && width * height == 0 ==> r == (if n == 0 then NotANumber else Percent(100.0))
    ensures shown && width * height > 0 && n as real * pi * 4.0 < (width * height) as real ==>
              r.value * (width * height) as real == n as real * pi * 400.0
  {
    if !shown then Hidden
    else if width * height == 0 then
      if n == 0 then NotANumber else Percent(100.0)
    else
      EstimateBelowCap(n, width, height, pi);
      Percent(Min(Estimate(n, width, height, pi), 100.0))
  }

  /**
   Below the cap the estimate is the summed disc area as a percentage of the
   canvas: `e * (width * height) == n * pi * 4 * 100`.
   */
  lemma EstimateBelowCap(n: nat, width: nat, height: nat, pi: real)
    requires pi > 0.0 && width * height > 0
    ensures n as real * pi * 4.0 < (width * height) as real ==>
              var e := Estimate(n, width, height, pi);
              e < 100.0 && e * (width * height) as real == n as real * pi * 400.0
  {
    var area := (width * height) as real;
    var k := n as real * pi * 4.0;
    assert Estimate(n, width, height, pi) == k / area * 100.0;
    QuotientReachesOne(k, area);
    var q := k / area;
    assert q * area == k;
    assert (q * 100.0) * area == (q * area) * 100.0;
  }

  /** More revealed points never lower the percentage. */
  lemma PercentageMonotone(n1: nat, n2: nat, width: nat, height: nat, pi: real)
    requires pi > 0.0 && width * height > 0 && n1 <= n2
    ensures RevealPercentage(n1, width, height, pi, true).value <= RevealPercentage(n2, width, height, pi, true).value
  {
    var k := pi * (PermanentRevealRadius * PermanentRevealRadius);
    var area := (width * height) as real;
    assert k > 0.0;
    assert Estimate(n1, width, height, pi) == n1 as real * k / area * 100.0;
    assert Estimate(n2, width, height, pi) == n2 as real * k / area * 100.0;
    EstimateMonotone(n1 as real, n2 as real, k, area);
  }

  lemma EstimateMonotone(n1: real, n2: real, k: real, area: real)
    requires 0.0 <= n1 <= n2 && k > 0.0 && area > 0.0
    ensures n1 * k / area * 100.0 <= n2 * k / area * 100.0
  {
    assert n2 * k - n1 * k == (n2 - n1) * k;
    assert (n2 - n1) * k >= 0.0;
    assert n2 * k / area - n1 * k / area == (n2 * k - n1 * k) / area;
  }

  /** The display reaches exactly 100 once the naive disc area covers the canvas, and never exceeds it. */
  lemma PercentageCap(n: nat, width: nat, height: nat, pi: real)
    requires pi > 0.0 && width * height > 0
    ensures var r := RevealPercentage(n, width, height, pi, true);
            r.value == 100.0 <==> n as real * pi * 4.0 >= (width * height) as real
  {
    var area := (width * height) as real;
    var k := n as real * pi * 4.0;
    assert Estimate(n, width, height, pi) == k / area * 100.0;
    QuotientReachesOne(k, area);
  }

  /** For a positive area, `k / area * 100` reaches 100 exactly when `k` reaches `area`. */
  lemma QuotientReachesOne(k: real, area: real)
    requires area > 0.0
    ensures k / area * 100.0 >= 100.0 <==> k >= area
  {
    var e := k / area;
    assert e * area == k;
    if e >= 1.0 {
      MulMonotone(1.0, e, area);
    } else {
      assert area - e * area == (1.0 - e) * area;
      assert (1.0 - e) * area > 0.0;
    }
    assert e * 100.0 >= 100.0 <==> e >= 1.0;
  }
}

=== FILE: persistence.dfy ===
/**
 The session snapshot kept in browser storage and the rules that decide
 whether a stored snapshot is restored, discarded or ignored.

 Storage holds one entry under a fixed key. JSON encoding is not modelled:
 a stored entry either parses to a `Snapshot` or is `Invalid`. A field
 that is absent from the parsed object is represented by a value that
 fails the comparison the source makes on it.
 */
module Persistence {
  import opened Optional
  import opened Geometry

  const StorageVersion := "1.0"

  /** The freshness window: 24 hours in milliseconds. */
  const FreshnessMs := 24 * 60 * 60 * 1000

  /**
   The stored record. `positions` is `None` when the field is missing or
   null; `imageModified` is `None` when the page had no modification token.
   */
  datatype Snapshot = Snapshot(
    version: string,
    positions: Option<seq<Point>>,
    timestamp: int,
    imagePath: string,
    imageModified: Option<real>,
    canvasWidth: int,
    canvasHeight: int)

  /** The storage entry: nothing stored, a value that does not parse, or a snapshot. */
  datatype Slot = Empty | Invalid | Holds(snapshot: Snapshot)

  /**
   What the page knows when it saves or loads: the image source, the
   modification token reported by the server (if any), the integer canvas
   size and the wall clock in epoch milliseconds.
   */
  datatype Page = Page(src: string, modified: Option<real>, width: nat, height: nat, now: int)

  /** The record saveRevealedPositions writes. */
  function Capture(positions: seq<Point>, page: Page): (s: Snapshot)
    ensures s.positions == Some(positions) && s.timestamp == page.now
    ensures Current(s, page) <==> page.now != 0
    ensures SameSize(s, page)
  {
    Snapshot(StorageVersion, Some(positions), page.now, page.src, page.modified, page.width, page.height)
  }

  /** The first four load checks: version, same image, a nonzero timestamp, younger than 24 hours. */
  predicate Current(s: Snapshot, page: Page)
  {
    && s.version == StorageVersion
    && s.imagePath == page.src
    && s.timestamp != 0
    && page.now - s.timestamp < FreshnessMs
  }

  predicate SameSize(s: Snapshot, page: Page)
  {
    s.canvasWidth == page.width && s.canvasHeight == page.height
  }

  /** What loadRevealedPositions does with the slot. */
  datatype Decision = Restore(positions: seq<Point>) | Discard | Keep

  function Decide(slot: Slot, page: Page): (d: Decision)
    ensures d.Restore? <==> slot.Holds? && Current(slot.snapshot, page) && SameSize(slot.snapshot, page)
    ensures d.Discard? <==> slot.Holds? && Current(slot.snapshot, page) && !SameSize(slot.snapshot, page)
    ensures d.Restore? ==> d.positions == slot.snapshot.positions.GetOr([])
  {
    match slot
    case Holds(s) =>
      if Current(s, page) then
        if SameSize(s, page) then Restore(s.positions.GetOr([])) else Discard
      else Keep
    case _ => Keep
  }

  /** A modification token is usable when present and nonzero (JavaScript truthiness of a number). */
  predicate Truthy(token: Option<real>)
  {
    token.Some? && token.value != 0.0
  }

  /**
   The new-image check done when the image finishes loading: the session is
   reset when the stored entry does not parse, names another image, or
   carries a different modification token while the page has one.
   */
  function IsNewImage(slot: Slot, page: Page): (r: bool)
    ensures slot.Empty? ==> !r
    ensures slot.Invalid? ==> r
    ensures slot.Holds? && slot.snapshot.imagePath != page.src ==> r
    ensures slot.Holds? && slot.snapshot.imagePath == page.src ==>
              (r <==> Truthy(page.modified) && slot.snapshot.imageModified != page.modified)
  {
    match slot
    case Empty => false
    case Invalid => true
    case Holds(s) => s.imagePath != page.src || (Truthy(page.modified) && s.imageModified != page.modified)
  }

  /** A snapshot saved at `saved` is restored at `later` exactly when the image, size and 24-hour window agree. */
  lemma CaptureThenDecide(positions: seq<Point>, saved: Page, later: Page)
    ensures var d := Decide(Holds(Capture(positions, saved)), later);
            d == (if saved.src == later.src && saved.now != 0 && later.now - saved.now < FreshnessMs then
                    if saved.width == later.width && saved.height == later.height then Restore(positions) else Discard
                  else Keep)
  {
  }

  /** A saved snapshot is never taken for a new image by a page showing the same image with the same token. */
  lemma CaptureIsNotNewImage(positions: seq<Point>, saved: Page, later: Page)
    requires saved.src == later.src
    requires !Truthy(later.modified) || later.modified == saved.modified
    ensures !IsNewImage(Holds(Capture(positions, saved)), later)
  {
  }

  /** A snapshot 24 hours old or older is never restored and never discarded. */
  lemma StaleIsKept(slot: Slot, page: Page)
    requires slot.Holds? && page.now - slot.snapshot.timestamp >= FreshnessMs
    ensures Decide(slot, page) == Keep
  {
  }
}

=== FILE: session.dfy ===
/**
 The reveal session as an explicit record threaded through one pure step
 function per browser event: the revealed-point store, the mouse state and
 the storage slot.
 */
module Session {
  import opened Optional
  import opened Geometry
  import opened RevealStore
  import opened GapFill
  import opened Persistence

  /**
   Mouse state: the latest client position, the client position of the
   previous move (the origin means "unset"), the canvas-local cursor used
   for the live hole, and the button flag.
   */
  datatype Mouse = Mouse(client: Point, last: Point, cursor: Point, down: bool)

  /** The state the script keeps in globals: the revealed-point store, the mouse and the storage entry. */
  datatype State = State(positions: seq<Point>, mouse: Mouse, slot: Slot)

  /** Facts read from the page during one event: image visibility, its client rectangle, and the save/load context. */
  datatype Env = Env(shown: bool, rect: Rect, page: Page)

  /** The initial mouse state: every position at the (0,0) sentinel, the button up. */
  const Idle := Mouse(Origin, Origin, Origin, false)

  /** A fresh page: empty store, mouse at rest; storage survives from earlier pages. */
  function Start(slot: Slot): (s: State)
    ensures s.positions == [] && s.slot == slot
    ensures s.mouse == Idle
  {
    State([], Idle, slot)
  }

  /** saveRevealedPositions: store a snapshot of the current list; nothing else changes. */
  function Save(s: State, page: Page): (r: State)
    ensures r.positions == s.positions && r.mouse == s.mouse
    ensures r.slot.Holds? && r.slot.snapshot.positions == Some(s.positions)
  {
    s.(slot := Holds(Capture(s.positions, page)))
  }

  /** resetSession: remove the stored entry and empty the store. */
  function Reset(s: State): (r: State)
    ensures r.positions == [] && r.slot == Empty && r.mouse == s.mouse
  {
    s.(positions := [], slot := Empty)
  }

  /**
   A permanent or moving insert at canvas point `q`; a successful push that
   brings the length to a multiple of 10 saves a checkpoint.
   */
  function Commit(s: State, page: Page, q: Point, policy: Policy): (r: State)
    requires policy != GapFill
    ensures r.mouse == s.mouse
    ensures r.positions == if Covered(s.positions, q, Threshold(policy)) then s.positions else s.positions + [q]
    ensures var fires := !Covered(s.positions, q, Threshold(policy)) && (|s.positions| + 1) % SaveEvery == 0;
            r.slot == if fires then Holds(Capture(s.positions + [q], page)) else s.slot
  {
    var ins := Add(s.positions, q, policy);
    var s' := s.(positions := ins.points);
    if ins.save then Save(s', page) else s'
  }

  /** The gap fill inside a move: from the previous client position, converted with the current rectangle. */
  function FillFrom(s: State, rect: Rect, cur: Point, m: Measure): (r: State)
    ensures r.mouse == s.mouse && r.slot == s.slot && IsPrefix(s.positions, r.positions)
    ensures s.mouse.last.x == 0.0 || s.mouse.last.y == 0.0 ==> r == s
  {
    if s.mouse.last.x != 0.0 && s.mouse.last.y != 0.0 then
      s.(positions := FillGaps(s.positions, ToCanvas(s.mouse.last, rect), cur, m))
    else s
  }

  /**
   The in-bounds part of a move at canvas point `cur`: permanent insert when
   the button is down, then the moving insert, then the gap fill.
   */
  function Reveal(s: State, env: Env, cur: Point, m: Measure): (r: State)
    ensures r.mouse == s.mouse && IsPrefix(s.positions, r.positions)
    ensures Covered(r.positions, cur, Threshold(Moving))
    ensures s.mouse.down ==> Covered(r.positions, cur, Threshold(Permanent))
  {
    var t1 := if s.mouse.down then Commit(s, env.page, cur, Permanent) else s;
    var t2 := Commit(t1, env.page, cur, Moving);
    var t3 := FillFrom(t2, env.rect, cur, m);
    AddCovers(s.positions, cur, Permanent);
    AddCovers(t1.positions, cur, Moving);
    PrefixTransitive(s.positions, t1.positions, t2.positions);
    PrefixTransitive(s.positions, t2.positions, t3.positions);
    FillGapsKeepsCoverage(t2, env.rect, cur, m);
    if s.mouse.down then
      CoveredExtends(t1.positions, t2.positions, cur, Threshold(Permanent));
      t3
    else t3
  }

  /** Gap filling only appends, so whatever was covered stays covered. */
  lemma FillGapsKeepsCoverage(s: State, rect: Rect, cur: Point, m: Measure)
    ensures forall radius :: Covered(s.positions, cur, radius) ==> Covered(FillFrom(s, rect, cur, m).positions, cur, radius)
  {
    forall radius | Covered(s.positions, cur, radius)
      ensures Covered(FillFrom(s, rect, cur, m).positions, cur, radius)
    {
      CoveredExtends(s.positions, FillFrom(s, rect, cur, m).positions, cur, radius);
    }
  }

  /**
   handleMouseMove. `m` measures the gap from the previous client position
   to `c`, both converted with the current rectangle.
   */
  function Move(s: State, env: Env, c: Point, m: Measure): (r: State)
    requires ValidMeasure(ToCanvas(s.mouse.last, env.rect), ToCanvas(c, env.rect), m)
    ensures r.mouse.client == c && r.mouse.last == c && r.mouse.down == s.mouse.down
    ensures r.mouse.cursor == if !env.shown then s.mouse.cursor
                              else if InRect(env.rect, c) then ToCanvas(c, env.rect)
                              else Origin
    ensures IsPrefix(s.positions, r.positions)
  {
    var s1 := s.(mouse := s.mouse.(client := c));
    var s2 :=
      if !env.shown then s1
      else if !InRect(env.rect, c) then s1.(mouse := s1.mouse.(cursor := Origin))
      else Reveal(s1.(mouse := s1.mouse.(cursor := ToCanvas(c, env.rect))), env, ToCanvas(c, env.rect), m);
    s2.(mouse := s2.mouse.(last := c))
  }

  /** handleMouseDown: the flag is set everywhere; a permanent point is committed only inside the image. */
  function Down(s: State, env: Env, c: Point): (r: State)
    ensures r.mouse == s.mouse.(down := true)
    ensures !(env.shown && InRect(env.rect, c)) ==> r.positions == s.positions && r.slot == s.slot
    ensures env.shown && InRect(env.rect, c) ==>
              Covered(r.positions, ToCanvas(c, env.rect), Threshold(Permanent))
    ensures env.shown && InRect(env.rect, c) ==>
              var cur := ToCanvas(c, env.rect);
              var pushed := !Covered(s.positions, cur, Threshold(Permanent));
              && r.positions == (if pushed then s.positions + [cur] else s.positions)
              && r.slot == (if pushed && (|s.positions| + 1) % SaveEvery == 0
                            then Holds(Capture(s.positions + [cur], env.page)) else s.slot)
    ensures IsPrefix(s.positions, r.positions) && |r.positions| <= |s.positions| + 1
  {
    var s1 := s.(mouse := s.mouse.(down := true));
    if env.shown && InRect(env.rect, c) then
      AddCovers(s1.positions, ToCanvas(c, env.rect), Permanent);
      Commit(s1, env.page, ToCanvas(c, env.rect), Permanent)
    else s1
  }

  /** handleMouseUp: clears the flag and touches nothing else. */
  function Up(s: State): (r: State)
    ensures r.positions == s.positions && r.slot == s.slot
    ensures r.mouse == s.mouse.(down := false)
  {
    s.(mouse := s.mouse.(down := false))
  }

  /** loadRevealedPositions: returns the new session and whether positions were restored. */
  function Load(s: State, page: Page): (r: (State, bool))
    ensures r.1 <==> s.slot.Holds? && Current(s.slot.snapshot, page) && SameSize(s.slot.snapshot, page)
    ensures r.1 ==> r.0 == s.(positions := s.slot.snapshot.positions.GetOr([]))
    ensures !r.1 && s.slot.Holds? && Current(s.slot.snapshot, page) ==> r.0 == Reset(s)
    ensures !(s.slot.Holds? && Current(s.slot.snapshot, page)) ==> r.0 == s
  {
    match Decide(s.slot, page)
    case Restore(ps) => (s.(positions := ps), true)
    case Discard => (Reset(s), false)
    case Keep => (s, false)
  }

  /**
   The image-ready callback: reset the canvas cursor, reset the session when
   storage holds a different or unreadable image record, then try to load.
   */
  function ImageReady(s: State, page: Page): (r: State)
    ensures r.mouse == s.mouse.(cursor := Origin)
    ensures IsNewImage(s.slot, page) ==> r.positions == [] && r.slot == Empty
    ensures !IsNewImage(s.slot, page) && Decide(s.slot, page).Restore? ==>
              r.positions == Decide(s.slot, page).positions && r.slot == s.slot
    ensures !IsNewImage(s.slot, page) && Decide(s.slot, page).Discard? ==>
              r.positions == [] && r.slot == Empty
    ensures !IsNewImage(s.slot, page) && Decide(s.slot, page).Keep? ==>
              r.positions == s.positions && r.slot == s.slot
  {
    var s1 := s.(mouse := s.mouse.(cursor := Origin));
    var s2 := if IsNewImage(s1.slot, page) then Reset(s1) else s1;
    Load(s2, page).0
  }

  /** The page-exit handler: a final save. */
  function Unload(s: State, page: Page): (r: State)
    ensures r.slot.Holds? && r.slot.snapshot.positions == Some(s.positions)
  {
    Save(s, page)
  }

  /** The store and the slot change only when the image is displayed and the pointer is inside it. */
  lemma MoveOutsideKeepsStore(s: State, env: Env, c: Point, m: Measure)
    requires ValidMeasure(ToCanvas(s.mouse.last, env.rect), ToCanvas(c, env.rect), m)
    requires !(env.shown && InRect(env.rect, c))
    ensures Move(s, env, c, m).positions == s.positions
    ensures Move(s, env, c, m).slot == s.slot
  {
  }

  /**
   An in-bounds move leaves the current canvas point covered (within 2 px, and
   within 4 px when the button is down). The current point is pushed at most
   once; gap points come only when the previous position is set.
   */
  lemma MoveInside(s: State, env: Env, c: Point, m: Measure)
    requires ValidMeasure(ToCanvas(s.mouse.last, env.rect), ToCanvas(c, env.rect), m)
    requires env.shown && InRect(env.rect, c)
    ensures var r := Move(s, env, c, m);
            var cur := ToCanvas(c, env.rect);
            && Covered(r.positions, cur, Threshold(Moving))
            && (s.mouse.down ==> Covered(r.positions, cur, Threshold(Permanent)))
            && |r.positions| <= |s.positions| + 1 + (if s.mouse.last.x != 0.0 && s.mouse.last.y != 0.0 then Count(m) else 0)
  {
    var cur := ToCanvas(c, env.rect);
    var s0 := s.(mouse := s.mouse.(client := c, cursor := cur));
    var t1 := if s0.mouse.down then Commit(s0, env.page, cur, Permanent) else s0;
    var t2 := Commit(t1, env.page, cur, Moving);
    if |t1.positions| > |s.positions| {
      assert t1.positions[|s.positions|] == cur;
      assert Near(t1.positions[|s.positions|], cur, Threshold(Moving));
    }
    assert |t2.positions| <= |s.positions| + 1;
  }

  /**
   The source registers the move handler on both the canvas and the document,
   so one physical move on the canvas runs it twice with the same event. The
   second run changes nothing.
   */
  lemma MoveTwice(s: State, env: Env, c: Point, m: Measure)
    requires ValidMeasure(ToCanvas(s.mouse.last, env.rect), ToCanvas(c, env.rect), m)
    ensures var r := Move(s, env, c, m);
            ValidMeasure(ToCanvas(r.mouse.last, env.rect), ToCanvas(c, env.rect), Measure(0.0, 0))
            && Move(r, env, c, Measure(0.0, 0)) == r
  {
    var r := Move(s, env, c, m);
    var cur := ToCanvas(c, env.rect);
    if env.shown && InRect(env.rect, c) {
      MoveInside(s, env, c, m);
      CoveredWider(r.positions, cur, Threshold(Moving), Threshold(Permanent));
    }
  }

  /**
   The first move of a page never gap-fills: the previous position is still
   the (0,0) sentinel, so at most the current point is stored.
   */
  lemma FirstMoveHasNoGap(slot: Slot, env: Env, c: Point, m: Measure)
    requires ValidMeasure(ToCanvas(Start(slot).mouse.last, env.rect), ToCanvas(c, env.rect), m)
    ensures |Move(Start(slot), env, c, m).positions| <= 1
  {
    if env.shown && InRect(env.rect, c) {
      MoveInside(Start(slot), env, c, m);
    } else {
      MoveOutsideKeepsStore(Start(slot), env, c, m);
    }
  }

  /** Coverage within a radius implies coverage within any larger radius. */
  lemma CoveredWider(ps: seq<Point>, q: Point, small: real, large: real)
    requires 0.0 <= small <= large
    requires Covered(ps, q, small)
    ensures Covered(ps, q, large)
  {
    var i :| 0 <= i < |ps| && Near(ps[i], q, small);
    SquareBelow(small, large);
  }

  /** The same holds for the doubly registered mouse-down handler. */
  lemma DownTwice(s: State, env: Env, c: Point)
    ensures Down(Down(s, env, c), env, c) == Down(s, env, c)
  {
  }

  /**
   Within one move, the slot either stays as it was or holds a checkpoint:
   a snapshot of a prefix of the new store, longer than the old store, whose
   length is a multiple of 10. Gap-fill pushes never save.
   */
  predicate CheckpointOf(slot: Slot, page: Page, before: seq<Point>, after: seq<Point>)
  {
    && slot.Holds?
    && slot.snapshot.positions.Some?
    && var ps := slot.snapshot.positions.value;
    && slot.snapshot == Capture(ps, page)
    && IsPrefix(before, ps) && |ps| > |before|
    && IsPrefix(ps, after)
    && |ps| % SaveEvery == 0
  }

  lemma MoveSavesOnlyCheckpoints(s: State, env: Env, c: Point, m: Measure)
    requires ValidMeasure(ToCanvas(s.mouse.last, env.rect), ToCanvas(c, env.rect), m)
    ensures var r := Move(s, env, c, m);
            r.slot == s.slot || CheckpointOf(r.slot, env.page, s.positions, r.positions)
  {
    if env.shown && InRect(env.rect, c) {
      var cur := ToCanvas(c, env.rect);
      var s0 := s.(mouse := s.mouse.(client := c, cursor := cur));
      RevealSavesOnlyCheckpoints(s0, env, cur, m);
      assert Move(s, env, c, m).positions == Reveal(s0, env, cur, m).positions;
      assert Move(s, env, c, m).slot == Reveal(s0, env, cur, m).slot;
    }
  }

  /** The in-bounds part of a move saves only checkpoints. */
  lemma RevealSavesOnlyCheckpoints(s: State, env: Env, cur: Point, m: Measure)
    ensures var r := Reveal(s, env, cur, m);
            r.slot == s.slot || CheckpointOf(r.slot, env.page, s.positions, r.positions)
  {
    var t1 := if s.mouse.down then Commit(s, env.page, cur, Permanent) else s;
    var t2 := Commit(t1, env.page, cur, Moving);
    var t3 := FillFrom(t2, env.rect, cur, m);
    assert Reveal(s, env, cur, m) == t3;
    if t2.slot != t1.slot {
      assert t2.slot == Holds(Capture(t2.positions, env.page));
      PrefixTransitive(s.positions, t1.positions, t2.positions);
    } else if t1.slot != s.slot {
      assert t1.slot == Holds(Capture(t1.positions, env.page));
      PrefixTransitive(t1.positions, t2.positions, t3.positions);
    }
  }

  /**
   Save on page exit, then a fresh page for the same image and canvas size,
   within 24 hours: the image-ready callback restores the identical list.
   */
  lemma ReloadRestores(s: State, before: Page, after: Page)
    requires before.src == after.src
    requires before.width == after.width && before.height == after.height
    requires before.now != 0 && after.now - before.now < FreshnessMs
    requires !Truthy(after.modified) || after.modified == before.modified
    ensures ImageReady(Start(Unload(s, before).slot), after).positions == s.positions
  {
    CaptureIsNotNewImage(s.positions, before, after);
  }

  /** Loading a snapshot saved for another canvas size clears both the slot and the store. */
  lemma ResizedSnapshotClears(s: State, positions: seq<Point>, before: Page, after: Page)
    requires s.slot == Holds(Capture(positions, before))
    requires before.src == after.src && before.now != 0 && after.now - before.now < FreshnessMs
    requires before.width != after.width
    ensures var r := Load(s, after); !r.1 && r.0.positions == [] && r.0.slot == Empty
  {
  }

  /**
   Entering the image from outside: the previous client position lies left
   of the rectangle, so the gap fill, which converts it with the current
   rectangle, stores a point with a negative canvas coordinate.
   */
  lemma EntryStrokeRevealsOffCanvas()
    ensures var env := Env(true, Rect(100.0, 100.0, 900.0, 700.0), Page("img", None, 800, 600, 1));
            var s := State([], Mouse(Point(50.0, 300.0), Point(50.0, 300.0), Origin, false), Empty);
            var c := Point(110.0, 300.0);
            var m := Measure(60.0, 15);
            && ValidMeasure(ToCanvas(s.mouse.last, env.rect), ToCanvas(c, env.rect), m)
            && |Move(s, env, c, m).positions| > 1
            && Move(s, env, c, m).positions[1] == Point(-46.0, 200.0)
  {
    var env := Env(true, Rect(100.0, 100.0, 900.0, 700.0), Page("img", None, 800, 600, 1));
    var s := State([], Mouse(Point(50.0, 300.0), Point(50.0, 300.0), Origin, false), Empty);
    var c := Point(110.0, 300.0);
    var m := Measure(60.0, 15);
    var prev, cur := Point(-50.0, 200.0), Point(10.0, 200.0);
    assert ToCanvas(s.mouse.last, env.rect) == prev && ToCanvas(c, env.rect) == cur;
    assert DistSq(prev, cur) == 3600.0;
    var s0 := s.(mouse := s.mouse.(client := c, cursor := cur));
    assert !Covered(s0.positions, cur, Threshold(Moving));
    var t2 := Commit(s0, env.page, cur, Moving);
    assert t2.positions == [cur];
    assert Move(s, env, c, m).positions == FillGaps([cur], prev, cur, m);
    EntryStrokeFill(prev, cur, m);
  }

  lemma EntryStrokeFill(prev: Point, cur: Point, m: Measure)
    requires prev == Point(-50.0, 200.0) && cur == Point(10.0, 200.0) && m == Measure(60.0, 15)
    ensures |FillGaps([cur], prev, cur, m)| > 1 && FillGaps([cur], prev, cur, m)[1] == Point(-46.0, 200.0)
  {
    var cs := Candidates(prev, cur, m);
    assert cs[0] == Point(-46.0, 200.0);
    var ps := [cur];
    assert DistSq(ps[0], cs[0]) == 3136.0;
    assert !Covered(ps, cs[0], Threshold(GapFill)) by {
      assert forall i :: 0 <= i < |ps| ==> ps[i] == cur;
    }
    var step := Add(ps, cs[0], GapFill);
    assert step.points == [cur, Point(-46.0, 200.0)];
    var filled := FillAll(ps, cs);
    assert filled == FillAll(step.points, cs[1..]);
    assert filled[..2] == step.points;
  }
}

=== FILE: store.dfy ===
/**
 The revealed-point store: an append-only sequence of canvas points with
 three insertion policies that differ only in their dedup radius.
 */
module RevealStore {
  import opened Geometry

  /** Permanent: click or drag; Moving: the trail left by every in-bounds move; GapFill: interpolated points. */
  datatype Policy = Permanent | Moving | GapFill

  /** Radius of one revealed hole; a permanent insert dedups at twice this. */
  const PermanentRevealRadius := 2.0

  /** A checkpoint save fires when the list length after a push is a multiple of this. */
  const SaveEvery := 10

  /** Dedup radius of each policy. */
  function Threshold(policy: Policy): (r: real)
    ensures r > 0.0
    ensures policy == Permanent ==> r == 2.0 * PermanentRevealRadius
  {
    match policy
    case Permanent => 2.0 * PermanentRevealRadius
    case Moving => 2.0
    case GapFill => 1.0
  }

  /** Some point of `ps` lies strictly closer than `radius` to `q`. */
  ghost predicate Covered(ps: seq<Point>, q: Point, radius: real)
  {
    exists i :: 0 <= i < |ps| && Near(ps[i], q, radius)
  }

  /** The left-to-right scan the source performs with `Array.prototype.some`. */
  predicate AnyNear(ps: seq<Point>, q: Point, radius: real)
  {
    |ps| > 0 && (Near(ps[0], q, radius) || AnyNear(ps[1..], q, radius))
  }

  lemma {:induction false} AnyNearIsCovered(ps: seq<Point>, q: Point, radius: real)
    ensures AnyNear(ps, q, radius) <==> Covered(ps, q, radius)
  {
    if |ps| > 0 {
      AnyNearIsCovered(ps[1..], q, radius);
      if Covered(ps, q, radius) && !Near(ps[0], q, radius) {
        var i :| 0 <= i < |ps| && Near(ps[i], q, radius);
        assert ps[1..][i - 1] == ps[i];
      }
      if AnyNear(ps[1..], q, radius) {
        var i :| 0 <= i < |ps[1..]| && Near(ps[1..][i], q, radius);
        assert ps[i + 1] == ps[1..][i];
      }
    }
  }

  /** `a` is an initial segment of `b`. */
  predicate IsPrefix(a: seq<Point>, b: seq<Point>)
  {
    |a| <= |b| && b[..|a|] == a
  }

  lemma PrefixTransitive(a: seq<Point>, b: seq<Point>, c: seq<Point>)
    requires IsPrefix(a, b) && IsPrefix(b, c)
    ensures IsPrefix(a, c)
  {
    assert c[..|a|] == c[..|b|][..|a|];
  }

  /** Outcome of one insert: the new list, whether the point was pushed, and the checkpoint signal. */
  datatype Insertion = Insertion(points: seq<Point>, added: bool, save: bool)

  /**
   addPermanentReveal, addRevealWhileMoving and the gap-fill push: append `q`
   unless an existing point is strictly within the policy's radius. Only the
   permanent and moving inserts raise the checkpoint signal.
   */
  function Add(ps: seq<Point>, q: Point, policy: Policy): (r: Insertion)
    ensures r.added <==> !Covered(ps, q, Threshold(policy))
    ensures r.added ==> r.points == ps + [q]
    ensures !r.added ==> r.points == ps
    ensures r.save <==> r.added && policy != GapFill && (|ps| + 1) % SaveEvery == 0
  {
    AnyNearIsCovered(ps, q, Threshold(policy));
    if AnyNear(ps, q, Threshold(policy)) then
      Insertion(ps, false, false)
    else
      var ps' := ps + [q];
      Insertion(ps', true, policy != GapFill && |ps'| % SaveEvery == 0)
  }

  /** Coverage survives appending: a store only grows. */
  lemma CoveredExtends(ps: seq<Point>, ps': seq<Point>, q: Point, radius: real)
    requires IsPrefix(ps, ps')
    requires Covered(ps, q, radius)
    ensures Covered(ps', q, radius)
  {
    var i :| 0 <= i < |ps| && Near(ps[i], q, radius);
    assert ps'[..|ps|][i] == ps'[i];
  }

  /** After an insert under any policy, the inserted point is covered within that policy's radius. */
  lemma AddCovers(ps: seq<Point>, q: Point, policy: Policy)
    ensures Covered(Add(ps, q, policy).points, q, Threshold(policy))
    ensures IsPrefix(ps, Add(ps, q, policy).points)
  {
    var r := Add(ps, q, policy);
    if r.added {
      assert r.points[|ps|] == q;
      assert Near(r.points[|ps|], q, Threshold(policy));
    }
  }

  /**
   Inserting the same point twice, under any two policies, grows the list by
   at most one, and the second insert pushes only if the first did not.
   */
  lemma AddTwice(ps: seq<Point>, q: Point, first: Policy, second: Policy)
    ensures var r1 := Add(ps, q, first);
            var r2 := Add(r1.points, q, second);
            |r2.points| <= |ps| + 1 && (r1.added ==> !r2.added && r2.points == r1.points)
  {
    var r1 := Add(ps, q, first);
    if r1.added {
      assert r1.points[|ps|] == q;
      assert Near(r1.points[|ps|], q, Threshold(second));
    }
  }

  /** A point dropped by a wider policy may still be pushed by a narrower one: the policies differ. */
  lemma MovingAcceptsWhatPermanentRejects()
    ensures var ps := [Point(0.0, 0.0)];
            var q := Point(3.0, 0.0);
            !Add(ps, q, Permanent).added && Add(ps, q, Moving).added
  {
    var ps := [Point(0.0, 0.0)];
    var q := Point(3.0, 0.0);
    assert DistSq(ps[0], q) == 9.0;
    assert forall i :: 0 <= i < |ps| ==> ps[i] == ps[0];
  }
}
